=== FILE: README.md ===
# PandasBucket, modelled in Dafny

This project models `PandasBucket` from `pandas_bucket.py` of pandas-minio. The class stores pandas
DataFrames and Series in one bucket of an S3-compatible store (minio) and reads them back. The
file name's suffix selects one of four formats: feather, parquet, JSON or CSV. The class also
turns the bucket's "object created" notifications into a stream of datasets.

The model is functional:

- **The store** is an immutable value `map<bucket, map<key, bytes>>` (`ObjectStore`). Every
  operation takes the store as a parameter, and every write returns the new store. The store
  answers with its own errors: NoSuchBucket, NoSuchKey, BucketAlreadyExists, and BucketNotEmpty
  for removing a bucket that still holds objects.
- **The `io.BytesIO` buffers** are a value with contents and a position (`ByteBuffer`). `write`,
  `tell`, `seek` and `read` follow Python's semantics.
- **The pandas calls** are a record of uninterpreted functions (`Codecs.Codecs`) over a dataset
  type parameter `D`:
  - the writers `to_feather`, `to_parquet`, `to_json` and `to_csv`;
  - the readers `read_feather`, `read_parquet`, `read_json` and `read_csv`;
  - the step by which a pandas text reader turns the buffer into text when options are passed
    (decompression under `compression`, another codec under `encoding`);
  - telling a Series from a DataFrame, and `Series.to_frame`.

  A writer or reader returns `None` where pandas raises.
- **The text formats** work on Python `str` values. A `str` is a sequence of code points, and lone
  surrogates may occur in it (`Utf8.Text`). The `.encode("utf-8")` that `put_json` and `put_csv`
  apply is strict UTF-8 after section 3 of RFC 3629: it fails with EncodeFailed on a lone surrogate.
  Reading a text format back without options decodes the bytes as strict UTF-8, which is pandas'
  default. With any option (`compression`, `encoding`, `encoding_errors` or another), pandas' own
  byte-to-text step is used instead.
- **The notification feed** is a finite log of notifications (`Events`). `Deliver` gives the part a
  subscription with a given bucket, key prefix, key suffix and event filter receives. A generator is
  modelled as a `Stream`: the items it yielded, and the exception that ended it, if any.
- **Python exceptions** are the `Err` side of `Basics.Result`. A Python `None` return is `Ok(None)`.

Modules: `Basics` (shared types), `Utf8`, `ByteBuffer`, `ObjectStore` (the minio client calls),
`Codecs` (formats, suffix dispatch, pandas calls), `PandasBucket` (the class), `Events`
(`listen_events`, `listen_events_created`, `subscribe`).

Two behaviours of the code are kept as they are:

- `put` and `read` return `None` for a name with no recognised suffix; they raise nothing.
- `subscribe` propagates the first failing `read` and ends there.

The model corrects five defects in the code. Each is recorded in a comment at the member and listed
under Findings, where the code as written is modelled too:

- `create` builds the bucket `self.name`. The code refers to an undefined `name`.
- `destroy` removes the bucket's objects before the bucket, as its documentation promises. The code
  calls `remove_bucket` alone, which the store refuses for a bucket with objects.
- `put_feather` and `put_parquet` store a Series as its one-column frame, as their documentation
  promises. The code calls `to_feather` / `to_parquet`, which only DataFrame has.
- `put` passes `name` to the `put_*` helpers. The code drops it.
  - Nothing else changes in the corrected call. Options given to `put` for a feather or parquet name
    still raise TypeError, because `put_feather` and `put_parquet` take none.
- `read` passes keyword options on to the pandas feather and parquet readers. The code passes them
  to `read_feather` and `read_parquet`, which do not accept them.

## Model

| member | source | states |
|---|---|---|
| Codecs.FirstMatch | pandas_bucket.py:122-129 | the selected position is the first suffix in the tested order that ends the name; no earlier suffix matches; the end position means none matched |
| Codecs.FormatOf | pandas_bucket.py:160-167 | a name selects format f exactly when it ends with f's suffix; it selects nothing exactly when it ends with none of `.feather`, `.parquet`, `.json`, `.csv` |
| Codecs.SuffixesDisjoint | pandas_bucket.py:114-121 | no name ends with two of the four suffixes, so the order of the tests never changes which format is chosen |
| Codecs.FormatOfChain | pandas_bucket.py:122-129 | the format chosen is the one the `if`/`elif` chain over `.feather`, `.parquet`, `.json`, `.csv` picks, in that order |
| Codecs.FormatOfSuffixed | pandas_bucket.py:151-159 | any name ending in an accepted suffix is read and written in that suffix's format |
| Codecs.EncodeText | pandas_bucket.py:87-88 | a text writer's output, encoded: the writer's error; EncodeFailed exactly when the text holds a lone surrogate; otherwise bytes that decode back to the text, at least one per character |
| Codecs.TextOf | pandas_bucket.py:141-149 | without options a text reader sees the unique text whose UTF-8 encoding is the buffer, and nothing when the buffer is not valid UTF-8; with any option, pandas' own byte-to-text step |
| Codecs.SerializeTransparent | pandas_bucket.py:141-149 | whenever the writer succeeds and text is read back as UTF-8, decoding the stored bytes gives exactly what the writer followed by the reader gives; the byte layer loses nothing |
| Utf8.Encode | pandas_bucket.py:87 | the UTF-8 form of a text without lone surrogates has between one and four bytes per character, and is empty only for the empty text |
| Utf8.EncodeStrict | pandas_bucket.py:87 | `str.encode("utf-8")` fails exactly when the text holds a lone surrogate; when it succeeds its bytes decode back to the text |
| Utf8.Decode | pandas_bucket.py:141-149 | a successful decoding holds no surrogate, so it can be encoded again, and has no more characters than bytes; the empty buffer decodes to the empty text |
| Utf8.DecodeEncode | pandas_bucket.py:102 | decoding the UTF-8 encoding of any encodable text gives the text back |
| Utf8.EncodeDecode | pandas_bucket.py:144 | any byte sequence that decodes is the encoding of what it decodes to, so the text read back is the text written |
| Utf8.DecodeEncodeChar | pandas_bucket.py:87-88 | decoding the head of a character's encoding yields that character and consumes exactly its bytes |
| Utf8.EncodeDecodeFirst | pandas_bucket.py:148-149 | a decodable head is exactly the encoding of the character it decodes to |
| ByteBuffer.Write | pandas_bucket.py:65-67 | a write puts the bytes at the position, advances the position by their number, and keeps the bytes outside the written range |
| ByteBuffer.Seek | pandas_bucket.py:60 | `seek(offset)` moves the position to the offset and keeps the contents |
| ByteBuffer.Read | pandas_bucket.py:45-50 | a read returns the next bytes from the position, at most the number asked for, fewer only at the end, and advances past them |
| ByteBuffer.ReadToEnd | pandas_bucket.py:134 | reading without a size returns everything from the position to the end |
| ByteBuffer.WriteFreshThenRewind | pandas_bucket.py:86-90 | after writing into a fresh buffer, `tell()` is the number of bytes written, and rewinding leaves exactly those bytes at position 0 |
| ObjectStore.StoresOnlyFrame | pandas_bucket.py:43-50 | an upload keeps the set of buckets, sets the one object, and leaves every other bucket and every other key as it was |
| ObjectStore.MakeBucket | pandas_bucket.py:36 | making a bucket adds it empty and keeps the others; making an existing bucket fails |
| ObjectStore.RemoveBucket | pandas_bucket.py:41 | removing succeeds exactly on an existing empty bucket, dropping it and keeping every other bucket; an absent bucket gives NoSuchBucket and one holding objects BucketNotEmpty |
| ObjectStore.ClearBucket | pandas_bucket.py:38-41 | deleting every object of an existing bucket leaves it empty and every other bucket unchanged; an absent bucket gives NoSuchBucket |
| ObjectStore.PutObject | pandas_bucket.py:45-50 | the upload succeeds exactly when the bucket exists and the stream holds `length` bytes from its position; it stores exactly those bytes under the key; a short stream fails with IncompleteBody before the bucket is consulted, and a full one into an absent bucket with NoSuchBucket |
| ObjectStore.GetObject | pandas_bucket.py:54-59 | the object's full bytes when bucket and key exist; NoSuchBucket or NoSuchKey otherwise |
| PandasBucket.Exists | pandas_bucket.py:28-31 | `exists` is true exactly when the store lists the bucket |
| PandasBucket.Create | pandas_bucket.py:33-36 | after create the bucket exists; an existing bucket leaves the store unchanged; a new bucket is empty; no other bucket changes |
| PandasBucket.Destroy | pandas_bucket.py:38-41 | after destroy the bucket is gone with its contents; an absent bucket leaves the store unchanged; no other bucket changes |
| PandasBucket.CreateIdempotent | pandas_bucket.py:33-36 | creating twice is the same as creating once |
| PandasBucket.DestroyIdempotent | pandas_bucket.py:38-41 | destroying twice is the same as destroying once |
| PandasBucket.CreateDestroyInverse | pandas_bucket.py:33-41 | create then destroy of a new bucket restores the store; destroy then create yields the bucket empty |
| PandasBucket.CreateAsWritten | pandas_bucket.py:36 | as written, create on an absent bucket raises NameError and on an existing one changes nothing |
| PandasBucket.CreateAsWrittenNeverCreates | pandas_bucket.py:23-36 | as written, a successful create implies the bucket already existed; on a missing bucket, the default `datasets` included, it fails where the intended create makes the bucket |
| PandasBucket.DestroyAsWritten | pandas_bucket.py:38-41 | as written, destroy leaves an absent bucket alone, removes an empty bucket as `Destroy` does, and fails with BucketNotEmpty on a bucket holding objects |
| PandasBucket.DestroyAsWrittenKeepsContents | pandas_bucket.py:38-41 | a bucket holding an object makes the as-written destroy fail, while the intended destroy removes it |
| PandasBucket.Upload | pandas_bucket.py:65-69 | write, tell, rewind and `__put__` store exactly the encoded bytes under the key and change nothing else; they fail only with NoSuchBucket |
| PandasBucket.RewindNeeded | pandas_bucket.py:67-69 | without the rewind to 0, uploading a non-empty encoding fails because the stream is read from its end |
| PandasBucket.GetBuffer | pandas_bucket.py:52-61 | `__get__` returns a buffer holding exactly the stored object's bytes at position 0, or the store's error |
| PandasBucket.UploadThenGet | pandas_bucket.py:43-61 | `__get__` right after `__put__` of the same key yields the uploaded bytes at position 0; other keys read as before |
| PandasBucket.CsvKwargs | pandas_bucket.py:93-102 | `to_csv` always receives an `index` option, False unless the caller gave one; all other options pass unchanged |
| PandasBucket.PutFeather | pandas_bucket.py:63-69 | `to_feather` raising ends the call with WriteFailed before the upload; otherwise it succeeds exactly when the bucket exists and stores exactly the feather bytes of the frame (a Series as its one-column frame) under the name and nothing else |
| PandasBucket.PutParquet | pandas_bucket.py:71-77 | as `PutFeather`, for `to_parquet` |
| PandasBucket.PutFeatherAsWritten | pandas_bucket.py:63-69 | as written, `put_feather` of a Series raises AttributeError; a DataFrame is stored as by `PutFeather` |
| PandasBucket.PutParquetAsWritten | pandas_bucket.py:71-77 | as written, `put_parquet` of a Series raises AttributeError; a DataFrame is stored as by `PutParquet` |
| PandasBucket.PutBinaryAsWrittenRejectsSeries | pandas_bucket.py:63-77 | a Series whose frame can be written is refused by both as-written binary writers and stored by the intended ones |
| PandasBucket.PutJson | pandas_bucket.py:79-91 | `to_json` raising gives WriteFailed and a lone surrogate in its text gives EncodeFailed, both before the upload; otherwise it succeeds exactly when the bucket exists, storing the UTF-8 bytes of the text, which decode back to it and number at least its characters |
| PandasBucket.PutCsv | pandas_bucket.py:93-106 | as `PutJson`, for the CSV text written with the `index` default |
| PandasBucket.PutInFormat | pandas_bucket.py:122-129 | one branch of `put`: options for feather or parquet raise TypeError; then the writer's or the encoder's error; then NoSuchBucket; otherwise exactly the format's bytes stored under the name and nothing else |
| PandasBucket.Put | pandas_bucket.py:108-129 | with no recognised suffix: returns None and stores nothing; with one: TypeError for feather or parquet options, the writer's or the encoder's error, NoSuchBucket on a missing bucket, or the selected format's bytes stored under the name and nothing else |
| PandasBucket.ReadFeather | pandas_bucket.py:131-134 | the feather reader applied to the whole stored object; NoSuchBucket, NoSuchKey or DecodeFailed otherwise |
| PandasBucket.ReadParquet | pandas_bucket.py:136-139 | the parquet reader applied to the whole stored object; the store's error or DecodeFailed otherwise |
| PandasBucket.ReadJson | pandas_bucket.py:141-144 | the JSON reader applied to the stored object's text, decoded as strict UTF-8 without options and by pandas' own step with them; the store's error or DecodeFailed otherwise |
| PandasBucket.ReadCsv | pandas_bucket.py:146-149 | the CSV reader applied to the stored object's text, decoded as strict UTF-8 without options and by pandas' own step with them; the store's error or DecodeFailed otherwise |
| PandasBucket.Read | pandas_bucket.py:151-167 | with no recognised suffix: returns None; with one: reads the stored object in the format that `put` would write for that name |
| PandasBucket.PutThenRead | pandas_bucket.py:108-167 | put succeeds exactly when its helper takes the options and the writer and encoder do not raise; a read right after reads the bytes put, and for a binary format, or a text format read without options, it equals the codec's writer followed by its reader |
| PandasBucket.PutThenReadLossless | pandas_bucket.py:108-139 | with lossless binary codecs, a feather or parquet dataset put reads back as the frame written: the dataset itself, or a Series' one-column frame |
| PandasBucket.StoreKeepsOtherNames | pandas_bucket.py:43-50 | storing one object leaves what every other name of the bucket reads unchanged |
| PandasBucket.PutKeepsOtherNames | pandas_bucket.py:108-129 | putting under one name never changes what any other name reads |
| PandasBucket.PutAsWritten | pandas_bucket.py:122-129 | as written, every recognised suffix raises TypeError and stores nothing; other names return None |
| PandasBucket.PutAsWrittenStoresNothing | pandas_bucket.py:122-129 | as written, put of a new name fails and the name stays unreadable, where the intended put of a writable dataset makes it readable |
| PandasBucket.ReadAsWritten | pandas_bucket.py:160-167 | as written, a feather or parquet read with keyword options raises TypeError; otherwise it reads as `Read` |
| PandasBucket.ReadAsWrittenRejectsOptions | pandas_bucket.py:160-163 | a stored feather object readable with given options is read by `Read` but rejected by the as-written read |
| Events.Deliver | pandas_bucket.py:178-183 | a subscription receives exactly the emitted notifications that have records, all of which match the bucket, prefix, suffix and event filter; nothing is invented |
| Events.DeliverAppend | pandas_bucket.py:178-184 | delivery keeps emission order: a longer log delivers the shorter log's notifications first |
| Events.FirstRecords | pandas_bucket.py:184-185 | yields one record per notification until one without records raises IndexError, which ends the stream |
| Events.FirstRecordsYieldsFirsts | pandas_bucket.py:184-185 | item i is the first record of notification i; the stream ends early exactly when a notification has no records |
| Events.FirstRecordsAppend | pandas_bucket.py:184-185 | consuming a longer feed first yields everything the shorter feed yields, in order |
| Events.ListenEvents | pandas_bucket.py:169-185 | yields the first record of each delivered notification, in emission order, one per notification; each passes the filter and nothing raises |
| Events.ListenEventsCreated | pandas_bucket.py:187-200 | yields the first record of each notification delivered under the filter `s3:ObjectCreated:*`, one per notification and in order; each is a created-object event of this bucket with the given key prefix and suffix |
| Events.CreatedWithinAllEvents | pandas_bucket.py:173-198 | every notification delivered under the created-object filter is also delivered under the default filter of `listen_events` |
| Events.ReadEach | pandas_bucket.py:210-213 | yields one result per record until the first read that raises, which ends the stream with that exception |
| Events.ReadEachReads | pandas_bucket.py:211-213 | item i is what `read` gives for record i's object key |
| Events.ReadEachAppend | pandas_bucket.py:210-213 | reading a longer record sequence first yields the shorter one's results, in order |
| Events.Subscribe | pandas_bucket.py:202-213 | item i is `read` of the i-th created record's key; without a failure there is one item per created record; a failure is the `read` error of the next record |
| Events.SubscribeAppend | pandas_bucket.py:202-213 | subscription follows emission order: over a log that continues a stretch read without error, that stretch's datasets come first |

## Findings

| source | as written | input that shows it | evidently intended | confidence | as-written member | corrected member |
|---|---|---|---|---|---|---|
| pandas_bucket.py:36 | `make_bucket(name)` uses a name defined nowhere in the module | constructing `PandasBucket(client)` on a store without bucket `datasets` raises NameError | `make_bucket(self.name)` | high; not executed | PandasBucket.CreateAsWritten, PandasBucket.CreateAsWrittenNeverCreates | PandasBucket.Create |
| pandas_bucket.py:38-41 | `destroy` calls `remove_bucket` on a bucket that may hold objects, though its documentation says the content goes too | `destroy()` on a bucket holding `prices.csv` is refused with BucketNotEmpty and the bucket stays | remove the bucket's objects, then the bucket | high; not executed | PandasBucket.DestroyAsWritten, PandasBucket.DestroyAsWrittenKeepsContents | PandasBucket.Destroy |
| pandas_bucket.py:63-77 | `put_feather` and `put_parquet` call `df.to_feather` / `df.to_parquet`, which a Series does not have, though their documentation accepts a Series | `put_feather(pandas.Series([1, 2]), "s.feather")` raises AttributeError | write the Series as a one-column frame (`to_frame()`) | medium; not executed | PandasBucket.PutFeatherAsWritten, PandasBucket.PutParquetAsWritten, PandasBucket.PutBinaryAsWrittenRejectsSeries | PandasBucket.PutFeather, PandasBucket.PutParquet |
| pandas_bucket.py:122-129 | each branch calls `put_*(df, **kwargs)` without the required `name` | `put(df, "prices.csv")` raises TypeError and stores nothing | `put_*(df, name, **kwargs)` | high; not executed | PandasBucket.PutAsWritten, PandasBucket.PutAsWrittenStoresNothing | PandasBucket.Put |
| pandas_bucket.py:160-163 | `read_feather(name, **kwargs)` and `read_parquet(name, **kwargs)` target methods that accept no keyword arguments | `read("prices.feather", columns=["a"])` raises TypeError | forward the options to `pandas.read_feather` / `pandas.read_parquet` | medium; not executed | PandasBucket.ReadAsWritten, PandasBucket.ReadAsWrittenRejectsOptions | PandasBucket.Read |

In the Dafny, the members named "as written" model the code as it stands, and the lemmas among
them exhibit each discrepancy. The corrected members are the ones the rest of the model uses.

## Left out

- The module-level `minio.Minio` client, its endpoint and its credentials (pandas_bucket.py:13). Connection configuration has no logic; the store is a parameter.
- example_nats.py. It is a NATS publish/subscribe demonstration that is network I/O only and never uses `PandasBucket`.
- The feather, parquet, JSON and CSV encodings themselves:
  - The pandas calls are foreign library code and are uninterpreted functions here. Which datasets and options make them raise is theirs to say.
  - Only the round-trip property of the binary formats is stated, as the `BinaryLossless` hypothesis.
  - The byte-to-text step pandas applies when a text reader is given options is uninterpreted as well.
- The object identifier (ETag) that `put_object` and the `put_*` helpers return. Only the resulting store is modelled.
- Transport, authentication and quota failures of the minio client. The model's errors are the store's answers about buckets and keys, plus IncompleteBody, which the client raises itself when the upload stream runs short before any request is sent.
- Bucket and object names are assumed valid for the client: S3's bucket-name rules hold and keys are non-empty. The client's ValueError on an invalid name is not modelled, nor is the order of its other argument checks.
- PandasBucket.Create, PandasBucket.Destroy, PandasBucket.CreateIdempotent, PandasBucket.DestroyIdempotent: these assume the store changes only through the calls modelled here. `create` and `destroy` test `bucket_exists` and then act (pandas_bucket.py:35-36, :40-41). Another client that creates or removes the bucket between the test and the action is not modelled. In that case `make_bucket` would raise BucketAlreadyOwnedByYou, or `remove_bucket` would raise NoSuchBucket.
- The blocking, endless nature of `listen_bucket_notification` and cancelling a generator. The feed is a finite log and a generator is the finite `Stream` it produced.
- PandasBucket.PutThenRead: for a text format read back with options, it states only that the read deserializes the stored bytes. Those options may decompress or re-decode the bytes, and that step is pandas' own, so no round trip is claimed.
- Events.Deliver: an approximation of the server-side filtering. It keeps a notification when it has records and all of them match the bucket, key prefix, key suffix and event patterns. Minio's exact per-record filtering and its keep-alive messages are not part of this model.
- Events.Subscribe: every `read` sees one store value. Objects created or deleted between a notification and its read are not modelled.
- URL-encoding of object keys in notification records. The key is used exactly as the record carries it, as the code does.
- Object and bucket names are strings of Unicode scalar values. A name holding a lone surrogate, which the client would fail to encode, is not modelled; dataset texts do carry lone surrogates.
- A keyword option that collides with a fixed argument (`path_or_buf` for `to_json` / `to_csv`) would raise TypeError in pandas. This is not modelled; options are opaque.
- The `length=-1` unknown-size upload mode of `put_object`. The code always passes the measured length.

=== FILE: basics.dfy ===
/** Shared vocabulary of the model: optional values, results that carry the
    exception a Python call would raise, and bytes. */
module Basics {

  /** A value that may be absent; also stands for Python's `None` return. */
  datatype Option<+T> = None | Some(value: T)

  /** The exceptions the modelled code can raise or propagate. Each one ends
      the Python call (or generator) that raised it. */
  datatype Error =
    | NoSuchBucket        // the client's S3 error for an absent bucket
    | NoSuchKey           // the client's S3 error for an absent object key
    | BucketAlreadyExists // the client's S3 error for making a bucket twice
    | BucketNotEmpty      // the client's S3 error for removing a bucket that holds objects
    | IncompleteBody      // the upload stream delivered fewer bytes than `length`
    | DecodeFailed        // a pandas reader raised (bytes it cannot parse, an option it rejects)
    | WriteFailed         // a pandas writer raised (an unsupported index or option)
    | EncodeFailed        // `str.encode("utf-8")` on a lone surrogate (UnicodeEncodeError)
    | MissingRecord       // `event["Records"][0]` on an empty record list (IndexError)
    | NameError           // a reference to an undefined Python name
    | TypeError           // a call with a missing or unexpected argument
    | AttributeError      // a method the object does not have (`Series.to_feather`)

  /** Either the value a call returns, or the exception it raises. */
  datatype Result<+T> = Ok(value: T) | Err(error: Error)

  /** One octet. */
  type byte = x: int | 0 <= x < 0x100

  type Bytes = seq<byte>

  lemma AppendAssoc<T>(x: seq<T>, y: seq<T>, z: seq<T>)
    ensures x + (y + z) == (x + y) + z
  {
  }
}

=== FILE: byte_buffer.dfy ===
/** The in-memory binary stream `io.BytesIO` as the adapter uses it: a byte
    array with a current position that `write` and `read` advance and `seek`
    sets. */
module ByteBuffer {
  import opened Basics

  datatype Buffer = Buffer(data: Bytes, pos: nat)

  /** `io.BytesIO()`: no contents, positioned at 0. */
  const Empty: Buffer := Buffer([], 0)

  function Max(a: int, b: int): int { if a < b then b else a }

  /** How many bytes a read from the current position can still deliver. */
  function Remaining(b: Buffer): nat {
    if b.pos < |b.data| then |b.data| - b.pos else 0
  }

  function Zeros(n: nat): (r: Bytes)
    ensures |r| == n
    ensures forall i :: 0 <= i < n ==> r[i] == 0
  {
    if n == 0 then [] else [0] + Zeros(n - 1)
  }

  /** `write(bytes)`: overwrites from the position on, growing the contents
      when needed (a gap between the end and the position reads as zero
      bytes), and leaves the position just past what was written. */
  function Write(b: Buffer, bytes: Bytes): (r: Buffer)
    ensures r.pos == b.pos + |bytes|
    ensures |r.data| == Max(|b.data|, r.pos)
    ensures r.data[b.pos..r.pos] == bytes
    ensures forall i :: 0 <= i < b.pos ==> r.data[i] == (if i < |b.data| then b.data[i] else 0)
    ensures forall i :: r.pos <= i < |r.data| ==> r.data[i] == b.data[i]
  {
    var padded := if b.pos <= |b.data| then b.data else b.data + Zeros(b.pos - |b.data|);
    var end := b.pos + |bytes|;
    Buffer(padded[..b.pos] + bytes + (if end < |padded| then padded[end..] else []), end)
  }

  /** `seek(offset)`, counted from the start of the stream. */
  function Seek(b: Buffer, offset: nat): (r: Buffer)
    ensures r.data == b.data && r.pos == offset
  {
    b.(pos := offset)
  }

  /** `read(n)`: at most `n` bytes from the position on (fewer only at the
      end of the contents), and the buffer advanced past them. */
  function Read(b: Buffer, n: nat): (r: (Bytes, Buffer))
    ensures |r.0| == (if n < Remaining(b) then n else Remaining(b))
    ensures r.0 == [] || r.0 == b.data[b.pos..b.pos + |r.0|]
    ensures r.1.data == b.data && r.1.pos == b.pos + |r.0|
  {
    if b.pos >= |b.data| then ([], b)
    else
      var end := if b.pos + n < |b.data| then b.pos + n else |b.data|;
      (b.data[b.pos..end], b.(pos := end))
  }

  /** `read()` with no size: everything from the position to the end. */
  function ReadToEnd(b: Buffer): (r: (Bytes, Buffer))
    ensures |r.0| == Remaining(b)
    ensures b.pos <= |b.data| ==> r.0 == b.data[b.pos..]
  {
    Read(b, Remaining(b))
  }

  /** Writing into a fresh stream and rewinding it leaves exactly the written
      bytes, positioned at the start, with `tell()` before the rewind equal
      to their number. */
  lemma WriteFreshThenRewind(bytes: Bytes)
    ensures Write(Empty, bytes).pos == |bytes|
    ensures Seek(Write(Empty, bytes), 0) == Buffer(bytes, 0)
  {
    var w := Write(Empty, bytes);
    assert w.data == w.data[0..w.pos];
  }
}

=== FILE: codecs.dfy ===
/** The four encodings the adapter writes and reads, how a file name selects
    one, and the codecs themselves. The codecs are the pandas writers and
    readers; their encodings are not modelled, so a `Codecs` value holds them
    as uninterpreted functions over a dataset type `D` (a pandas DataFrame or
    Series). */
module Codecs {
  import opened Basics
  import Utf8

  datatype Format = Feather | Parquet | Json | Csv

  /** The file-name suffix that selects each format. */
  function Suffix(f: Format): string {
    match f
    case Feather => ".feather"
    case Parquet => ".parquet"
    case Json => ".json"
    case Csv => ".csv"
  }

  /** The order in which `put` and `read` test the suffixes. */
  const DispatchOrder: seq<Format> := [Feather, Parquet, Json, Csv]

  /** Python's `str.endswith`. */
  predicate EndsWith(name: string, suffix: string) {
    |suffix| <= |name| && name[|name| - |suffix|..] == suffix
  }

  /** No format before position `i` of `order` has a suffix ending `name`. */
  predicate NoEarlierMatch(name: string, order: seq<Format>, i: int)
    requires i <= |order|
  {
    forall j :: 0 <= j < i ==> !EndsWith(name, Suffix(order[j]))
  }

  /** The position in `order` of the first format whose suffix ends `name`,
      or `|order|` when there is none: an `if`/`elif` chain over `order`. */
  function FirstMatch(name: string, order: seq<Format>): (i: nat)
    ensures i <= |order|
    ensures NoEarlierMatch(name, order, i)
    ensures i < |order| ==> EndsWith(name, Suffix(order[i]))
  {
    if order == [] then 0
    else if EndsWith(name, Suffix(order[0])) then 0
    else 1 + FirstMatch(name, order[1..])
  }

  /** The format `put` and `read` select for `name`; `None` when no branch
      of their dispatch fires. */
  function FormatOf(name: string): (r: Option<Format>)
    ensures forall f :: r == Some(f) <==> EndsWith(name, Suffix(f))
    ensures r.None? <==> forall f :: !EndsWith(name, Suffix(f))
  {
    var i := FirstMatch(name, DispatchOrder);
    var r := if i < |DispatchOrder| then Some(DispatchOrder[i]) else None;
    forall f | EndsWith(name, Suffix(f)) ensures r == Some(f) {
      assert DispatchOrder[IndexOf(f)] == f;
      if r.Some? {
        SuffixesDisjoint(name, f, r.value);
      }
    }
    r
  }

  function IndexOf(f: Format): (i: nat)
    ensures i < |DispatchOrder| && DispatchOrder[i] == f
  {
    match f
    case Feather => 0
    case Parquet => 1
    case Json => 2
    case Csv => 3
  }

  /** No name ends in two of the suffixes, so the order in which they are
      tested never changes the outcome. */
  lemma SuffixesDisjoint(name: string, f: Format, g: Format)
    requires EndsWith(name, Suffix(f)) && EndsWith(name, Suffix(g))
    ensures f == g
  {
    var last := name[|name| - 1];
    assert last == Suffix(f)[|Suffix(f)| - 1];
    assert last == Suffix(g)[|Suffix(g)| - 1];
  }

  /** `FormatOf` is the `if`/`elif` chain of `put` and `read`, spelled out
      with the literal suffixes in their order. */
  lemma FormatOfChain(name: string)
    ensures FormatOf(name) ==
      if EndsWith(name, ".feather") then Some(Feather)
      else if EndsWith(name, ".parquet") then Some(Parquet)
      else if EndsWith(name, ".json") then Some(Json)
      else if EndsWith(name, ".csv") then Some(Csv)
      else None
  {
    assert Suffix(Feather) == ".feather" && Suffix(Parquet) == ".parquet";
    assert Suffix(Json) == ".json" && Suffix(Csv) == ".csv";
  }

  /** Any base name followed by a format's suffix selects that format. */
  lemma FormatOfSuffixed(base: string, f: Format)
    ensures FormatOf(base + Suffix(f)) == Some(f)
  {
    var name := base + Suffix(f);
    assert name[|name| - |Suffix(f)|..] == Suffix(f);
  }

  /** Extra keyword arguments, forwarded to pandas without interpretation. */
  datatype Arg = Flag(on: bool) | Value(repr: string)
  type Kwargs = map<string, Arg>

  const NoKwargs: Kwargs := map[]

  predicate IsBinary(f: Format) {
    f == Feather || f == Parquet
  }

  /** The pandas operations the adapter relies on, as uninterpreted functions
      over the dataset type `D`. A writer or reader returns `None` where pandas
      raises: `to_feather` on a frame without a default index, a reader on
      bytes that do not parse, an option the call does not accept. The text
      writers produce a Python `str`, which may hold lone surrogates. */
  datatype Codecs<!D> = Codecs(
    toFeather: D -> Option<Bytes>,
    fromFeather: (Bytes, Kwargs) -> Option<D>,
    toParquet: D -> Option<Bytes>,
    fromParquet: (Bytes, Kwargs) -> Option<D>,
    toJson: (D, Kwargs) -> Option<Utf8.Text>,
    fromJson: (Utf8.Text, Kwargs) -> Option<D>,
    toCsv: (D, Kwargs) -> Option<Utf8.Text>,
    fromCsv: (Utf8.Text, Kwargs) -> Option<D>,
    /** How the pandas text readers turn a buffer into text when the caller
        passes options: decompression under `compression`, the chosen
        `encoding` and `encoding_errors`, and whatever else pandas applies. */
    decodeText: (Bytes, Kwargs) -> Option<Utf8.Text>,
    /** Whether a dataset is a `pandas.Series` rather than a DataFrame. */
    isSeries: D -> bool,
    /** `Series.to_frame()`. */
    toFrame: D -> D)

  /** The DataFrame a binary writer is given: a Series becomes a one-column
      frame, since only DataFrame has `to_feather` and `to_parquet`. */
  function AsFrame<D>(c: Codecs<D>, d: D): D {
    if c.isSeries(d) then c.toFrame(d) else d
  }

  /** The bytes of a binary writer, or the error it raises. */
  function Binary(out: Option<Bytes>): (r: Result<Bytes>)
    ensures r.Ok? <==> out.Some?
    ensures r.Ok? ==> r.value == out.value
    ensures r.Err? ==> r.error == WriteFailed
  {
    match out
    case None => Err(WriteFailed)
    case Some(bytes) => Ok(bytes)
  }

  /** A text writer's output followed by `.encode("utf-8")`: the writer's
      error, the encoder's error on a lone surrogate, or bytes that decode
      back to the text. */
  function EncodeText(out: Option<Utf8.Text>): (r: Result<Bytes>)
    ensures out.None? ==> r == Err(WriteFailed)
    ensures out.Some? ==> (r.Ok? <==> Utf8.Encodable(out.value))
    ensures out.Some? && !Utf8.Encodable(out.value) ==> r == Err(EncodeFailed)
    ensures r.Ok? ==> Utf8.Decode(r.value) == Some(out.value) && |out.value| <= |r.value|
  {
    match out
    case None => Err(WriteFailed)
    case Some(text) =>
      match Utf8.EncodeStrict(text)
      case None => Err(EncodeFailed)
      case Some(bytes) => Ok(bytes)
  }

  /** The bytes a dataset is stored as, or the error raised on the way:
      the binary formats as their writer produces them from the frame, the
      text formats UTF-8 encoded. */
  function Serialize<D>(c: Codecs<D>, f: Format, d: D, kw: Kwargs): Result<Bytes> {
    match f
    case Feather => Binary(c.toFeather(AsFrame(c, d)))
    case Parquet => Binary(c.toParquet(AsFrame(c, d)))
    case Json => EncodeText(c.toJson(d, kw))
    case Csv => EncodeText(c.toCsv(d, kw))
  }

  /** No options: pandas reads the buffer as it is, as strict UTF-8. Any
      option may change that (`compression` decompresses the buffer first,
      `encoding` picks another codec), so every other option set goes
      through pandas' own uninterpreted step. */
  predicate DefaultDecoding(kw: Kwargs) {
    kw == NoKwargs
  }

  /** The text a pandas text reader sees in a buffer. Without options it is
      the unique text whose UTF-8 encoding is the buffer, and there is none
      when the buffer is not valid UTF-8. */
  function TextOf<D>(c: Codecs<D>, bytes: Bytes, kw: Kwargs): (r: Option<Utf8.Text>)
    ensures DefaultDecoding(kw) ==> r == Utf8.Decode(bytes)
    ensures DefaultDecoding(kw) && r.Some? ==> Utf8.Encodable(r.value) && Utf8.Encode(r.value) == bytes
    ensures DefaultDecoding(kw) ==>
      forall t: Utf8.Text :: Utf8.Encodable(t) && Utf8.Encode(t) == bytes ==> r == Some(t)
    ensures !DefaultDecoding(kw) ==> r == c.decodeText(bytes, kw)
  {
    Utf8.DecodeExactly(bytes);
    if DefaultDecoding(kw) then Utf8.Decode(bytes) else c.decodeText(bytes, kw)
  }

  /** Reads a dataset back from stored bytes; the text formats first turn
      the bytes into text. */
  function Deserialize<D>(c: Codecs<D>, f: Format, bytes: Bytes, kw: Kwargs): Option<D> {
    match f
    case Feather => c.fromFeather(bytes, kw)
    case Parquet => c.fromParquet(bytes, kw)
    case Json =>
      (match TextOf(c, bytes, kw)
       case None => None
       case Some(text) => c.fromJson(text, kw))
    case Csv =>
      (match TextOf(c, bytes, kw)
       case None => None
       case Some(text) => c.fromCsv(text, kw))
  }

  /** What the codec pair alone makes of a dataset: its writer followed
      directly by its reader, with no bytes or storage in between. */
  function CodecRoundTrip<D>(c: Codecs<D>, f: Format, d: D, wk: Kwargs, rk: Kwargs): Option<D> {
    match f
    case Feather => (match c.toFeather(AsFrame(c, d)) case None => None case Some(b) => c.fromFeather(b, rk))
    case Parquet => (match c.toParquet(AsFrame(c, d)) case None => None case Some(b) => c.fromParquet(b, rk))
    case Json => (match c.toJson(d, wk) case None => None case Some(t) => c.fromJson(t, rk))
    case Csv => (match c.toCsv(d, wk) case None => None case Some(t) => c.fromCsv(t, rk))
  }

  /** The byte layer adds nothing and loses nothing: deserializing what was
      serialized is exactly the codec pair's own round trip, whenever the
      format is binary or the text reader is given no options, so that it
      decodes UTF-8, the encoding the writer used. */
  lemma SerializeTransparent<D>(c: Codecs<D>, f: Format, d: D, wk: Kwargs, rk: Kwargs)
    requires Serialize(c, f, d, wk).Ok?
    ensures IsBinary(f) || DefaultDecoding(rk) ==>
      Deserialize(c, f, Serialize(c, f, d, wk).value, rk) == CodecRoundTrip(c, f, d, wk, rk)
  {
  }

  /** The binary formats are lossless: with default options, their reader
      returns exactly the frame their writer was given. */
  ghost predicate BinaryLossless<D(!new)>(c: Codecs<D>) {
    && (forall d: D :: c.toFeather(d).Some? ==> c.fromFeather(c.toFeather(d).value, NoKwargs) == Some(d))
    && (forall d: D :: c.toParquet(d).Some? ==> c.fromParquet(c.toParquet(d).value, NoKwargs) == Some(d))
  }
}

=== FILE: events.dfy ===
/** Bucket notifications and the generators built on them: `listen_events`,
    `listen_events_created` and `subscribe`. The store's notification feed is
    a finite log of what it emitted; `Deliver` is what a subscription with a
    given filter receives from it. */
module Events {
  import opened Basics
  import opened ObjectStore
  import opened Codecs
  import opened PandasBucket

  /** One S3 event record: `eventName`, `s3.bucket.name`, `s3.object.key`. */
  datatype Record = Record(eventName: string, bucketName: string, key: string)

  /** One notification: its `Records` list. */
  datatype Notification = Notification(records: seq<Record>)

  /** What a generator produced before it stopped: the items it yielded, and
      the exception that ended it, if one did. */
  datatype Stream<T> = Stream(items: seq<T>, fault: Option<Error>)

  const ObjectCreated: string := "s3:ObjectCreated:*"

  /** The default event filter of `listen_events`. */
  const AllEvents: seq<string> := [ObjectCreated, "s3:ObjectRemoved:*", "s3:ObjectAccessed:*"]

  /** The prefix every created-object event name starts with. */
  const CreatedPrefix: string := "s3:ObjectCreated:"

  predicate StartsWith(s: string, prefix: string) {
    |prefix| <= |s| && s[..|prefix|] == prefix
  }

  /** An event filter entry: a name, or a name prefix followed by `*`. */
  predicate EventMatches(pattern: string, eventName: string) {
    if |pattern| > 0 && pattern[|pattern| - 1] == '*'
    then StartsWith(eventName, pattern[..|pattern| - 1])
    else eventName == pattern
  }

  /** A record passes a subscription's filter. */
  predicate Selected(r: Record, bucket: string, prefix: string, suffix: string, events: seq<string>) {
    && r.bucketName == bucket
    && StartsWith(r.key, prefix)
    && EndsWith(r.key, suffix)
    && exists i :: 0 <= i < |events| && EventMatches(events[i], r.eventName)
  }

  /** A notification reaches the subscriber: it carries records, all of
      which pass the filter. */
  predicate Delivered(n: Notification, bucket: string, prefix: string, suffix: string, events: seq<string>) {
    |n.records| > 0 && forall i :: 0 <= i < |n.records| ==> Selected(n.records[i], bucket, prefix, suffix, events)
  }

  /** The notifications a subscription receives from the store's log, in
      the order the store emitted them. */
  function Deliver(log: seq<Notification>, bucket: string, prefix: string, suffix: string, events: seq<string>)
    : (r: seq<Notification>)
    ensures |r| <= |log|
    ensures forall i :: 0 <= i < |r| ==> Delivered(r[i], bucket, prefix, suffix, events)
    ensures forall n :: n in r <==> n in log && Delivered(n, bucket, prefix, suffix, events)
  {
    if log == [] then []
    else
      var rest := Deliver(log[1..], bucket, prefix, suffix, events);
      assert forall n :: n in log <==> n == log[0] || n in log[1..];
      if Delivered(log[0], bucket, prefix, suffix, events) then [log[0]] + rest else rest
  }

  /** Delivery keeps emission order: what is emitted later is received
      later. */
  lemma {:induction false} DeliverAppend(a: seq<Notification>, b: seq<Notification>,
                                          bucket: string, prefix: string, suffix: string, events: seq<string>)
    ensures Deliver(a + b, bucket, prefix, suffix, events)
         == Deliver(a, bucket, prefix, suffix, events) + Deliver(b, bucket, prefix, suffix, events)
  {
    if a != [] {
      assert (a + b)[0] == a[0];
      assert (a + b)[1..] == a[1..] + b;
      DeliverAppend(a[1..], b, bucket, prefix, suffix, events);
      if Delivered(a[0], bucket, prefix, suffix, events) {
        AppendAssoc([a[0]], Deliver(a[1..], bucket, prefix, suffix, events), Deliver(b, bucket, prefix, suffix, events));
      }
    } else {
      assert a + b == b;
    }
  }

  /** The loop of `listen_events`: yields `event["Records"][0]` for each
      notification in turn; a notification without records raises
      IndexError and ends the generator. */
  function FirstRecords(feed: seq<Notification>): (r: Stream<Record>)
    ensures |r.items| <= |feed|
    ensures r.fault.None? ==> |r.items| == |feed|
    ensures r.fault.Some? ==> r.fault == Some(MissingRecord) && |r.items| < |feed| && feed[|r.items|].records == []
  {
    if feed == [] then Stream([], None)
    else if feed[0].records == [] then Stream([], Some(MissingRecord))
    else
      var rest := FirstRecords(feed[1..]);
      Stream([feed[0].records[0]] + rest.items, rest.fault)
  }

  /** Item `i` is the first record of notification `i`, and the generator
      stops early exactly when some notification has no records. */
  lemma {:induction false} FirstRecordsYieldsFirsts(feed: seq<Notification>)
    ensures var r := FirstRecords(feed);
      forall i :: 0 <= i < |r.items| ==> |feed[i].records| > 0 && r.items[i] == feed[i].records[0]
    ensures FirstRecords(feed).fault.None? <==> forall i :: 0 <= i < |feed| ==> |feed[i].records| > 0
  {
    if feed != [] && feed[0].records != [] {
      FirstRecordsYieldsFirsts(feed[1..]);
      var rest := FirstRecords(feed[1..]);
      assert FirstRecords(feed).items == [feed[0].records[0]] + rest.items;
      forall i | 0 <= i < |feed| && FirstRecords(feed).fault.None? ensures |feed[i].records| > 0 {
        if i > 0 {
          assert feed[i] == feed[1..][i - 1];
        }
      }
    }
  }

  /** Consuming a longer feed first yields everything the shorter one did. */
  lemma {:induction false} FirstRecordsAppend(a: seq<Notification>, b: seq<Notification>)
    requires FirstRecords(a).fault.None?
    ensures FirstRecords(a + b) == Stream(FirstRecords(a).items + FirstRecords(b).items, FirstRecords(b).fault)
  {
    if a == [] {
      assert a + b == b;
    } else {
      assert a[0].records != [];
      var ra := FirstRecords(a[1..]);
      assert FirstRecords(a) == Stream([a[0].records[0]] + ra.items, ra.fault);
      assert ra.fault.None?;
      assert (a + b)[0] == a[0];
      assert (a + b)[1..] == a[1..] + b;
      FirstRecordsAppend(a[1..], b);
      var rab := FirstRecords(a[1..] + b);
      assert FirstRecords(a + b) == Stream([a[0].records[0]] + rab.items, rab.fault);
      var rb := FirstRecords(b);
      assert rab.items == ra.items + rb.items && rab.fault == rb.fault;
      var h := [a[0].records[0]];
      AppendAssoc(h, ra.items, rb.items);
    }
  }

  /** `listen_events`: the first record of each notification the
      subscription receives, in order. */
  function ListenEvents(log: seq<Notification>, bucket: string, prefix: string, suffix: string, events: seq<string>)
    : (r: Stream<Record>)
    ensures r.fault.None?
    ensures |r.items| == |Deliver(log, bucket, prefix, suffix, events)|
    ensures forall i :: 0 <= i < |r.items| ==>
      r.items[i] == Deliver(log, bucket, prefix, suffix, events)[i].records[0]
      && Selected(r.items[i], bucket, prefix, suffix, events)
  {
    var delivered := Deliver(log, bucket, prefix, suffix, events);
    FirstRecordsYieldsFirsts(delivered);
    FirstRecords(delivered)
  }

  /** A created-object event name. */
  predicate IsCreated(r: Record) {
    StartsWith(r.eventName, CreatedPrefix)
  }

  /** `listen_events_created`: `listen_events` with the event filter pinned
      to created objects. It yields one record per notification delivered
      under that filter, and no removal or access event comes through. */
  function ListenEventsCreated(log: seq<Notification>, bucket: string, prefix: string, suffix: string)
    : (r: Stream<Record>)
    ensures r.fault.None?
    ensures |r.items| == |Deliver(log, bucket, prefix, suffix, [ObjectCreated])|
    ensures forall i :: 0 <= i < |r.items| ==>
      r.items[i] == Deliver(log, bucket, prefix, suffix, [ObjectCreated])[i].records[0]
    ensures forall i :: 0 <= i < |r.items| ==>
      IsCreated(r.items[i]) && r.items[i].bucketName == bucket
      && StartsWith(r.items[i].key, prefix) && EndsWith(r.items[i].key, suffix)
  {
    var r := ListenEvents(log, bucket, prefix, suffix, [ObjectCreated]);
    forall i | 0 <= i < |r.items| ensures IsCreated(r.items[i]) {
      assert Selected(r.items[i], bucket, prefix, suffix, [ObjectCreated]);
      assert ObjectCreated[..|ObjectCreated| - 1] == CreatedPrefix;
    }
    r
  }

  /** The created-object filter is narrower than the default filter of
      `listen_events`: every notification a created-object subscription
      receives, a default subscription receives too. */
  lemma CreatedWithinAllEvents(log: seq<Notification>, bucket: string, prefix: string, suffix: string)
    ensures forall n :: n in Deliver(log, bucket, prefix, suffix, [ObjectCreated])
                    ==> n in Deliver(log, bucket, prefix, suffix, AllEvents)
  {
    forall n | n in Deliver(log, bucket, prefix, suffix, [ObjectCreated])
      ensures n in Deliver(log, bucket, prefix, suffix, AllEvents)
    {
      assert Delivered(n, bucket, prefix, suffix, [ObjectCreated]);
      forall i | 0 <= i < |n.records| ensures Selected(n.records[i], bucket, prefix, suffix, AllEvents) {
        assert Selected(n.records[i], bucket, prefix, suffix, [ObjectCreated]);
        assert EventMatches(AllEvents[0], n.records[i].eventName);
      }
    }
  }

  /** The body of `subscribe`'s loop over a sequence of records: apply
      `read` to each record's key in turn and yield the result; the first
      call that raises ends the generator with that exception. */
  function ReadEach<T>(read: string -> Result<T>, records: seq<Record>): (r: Stream<T>)
    ensures |r.items| <= |records|
    ensures r.fault.None? ==> |r.items| == |records|
    ensures r.fault.Some? ==> |r.items| < |records| && read(records[|r.items|].key) == Err(r.fault.value)
  {
    if records == [] then Stream([], None)
    else match read(records[0].key)
      case Err(e) => Stream([], Some(e))
      case Ok(x) =>
        var rest := ReadEach(read, records[1..]);
        Stream([x] + rest.items, rest.fault)
  }

  /** Item `i` is what `read` makes of record `i`'s key. */
  lemma {:induction false} ReadEachReads<T>(read: string -> Result<T>, records: seq<Record>)
    ensures var r := ReadEach(read, records);
      forall i :: 0 <= i < |r.items| ==> read(records[i].key) == Ok(r.items[i])
  {
    if records != [] && read(records[0].key).Ok? {
      ReadEachReads(read, records[1..]);
      var rest := ReadEach(read, records[1..]);
      assert ReadEach(read, records).items == [read(records[0].key).value] + rest.items;
    }
  }

  /** Reading a longer sequence of records first yields everything the
      shorter one did. */
  lemma {:induction false} ReadEachAppend<T>(read: string -> Result<T>, a: seq<Record>, b: seq<Record>)
    requires ReadEach(read, a).fault.None?
    ensures ReadEach(read, a + b) == Stream(ReadEach(read, a).items + ReadEach(read, b).items, ReadEach(read, b).fault)
  {
    if a == [] {
      assert a + b == b;
    } else {
      assert (a + b)[0] == a[0];
      assert (a + b)[1..] == a[1..] + b;
      var x := read(a[0].key);
      assert x.Ok?;
      var ra := ReadEach(read, a[1..]);
      assert ReadEach(read, a) == Stream([x.value] + ra.items, ra.fault);
      assert ra.fault.None?;
      ReadEachAppend(read, a[1..], b);
      var rab := ReadEach(read, a[1..] + b);
      assert ReadEach(read, a + b) == Stream([x.value] + rab.items, rab.fault);
      var rb := ReadEach(read, b);
      assert rab.items == ra.items + rb.items && rab.fault == rb.fault;
      AppendAssoc([x.value], ra.items, rb.items);
    }
  }

  /** `subscribe`'s `read`: the dataset stored under a key, read with
      default options. */
  function Reader<D>(c: Codecs<D>, s: Store, bucket: string): string -> Result<Option<D>> {
    key => Read(c, s, bucket, key, NoKwargs)
  }

  /** `subscribe`: for each created-object record, in order, the dataset
      `read` makes of its key. Every read sees the store `s`. */
  function Subscribe<D>(c: Codecs<D>, s: Store, log: seq<Notification>, bucket: string, prefix: string, suffix: string)
    : (r: Stream<Option<D>>)
    ensures
      var created := ListenEventsCreated(log, bucket, prefix, suffix).items;
      && |r.items| <= |created|
      && (r.fault.None? ==> |r.items| == |created|)
      && (forall i :: 0 <= i < |r.items| ==> Read(c, s, bucket, created[i].key, NoKwargs) == Ok(r.items[i]))
      && (r.fault.Some? ==>
            |r.items| < |created| && Read(c, s, bucket, created[|r.items|].key, NoKwargs) == Err(r.fault.value))
  {
    var created := ListenEventsCreated(log, bucket, prefix, suffix).items;
    ReadEachReads(Reader(c, s, bucket), created);
    ReadEach(Reader(c, s, bucket), created)
  }

  /** Subscription follows emission order: over a log that continues after
      a stretch read without error, the generator first yields what that
      stretch yields, then what the rest yields. */
  lemma SubscribeAppend<D>(c: Codecs<D>, s: Store, a: seq<Notification>, b: seq<Notification>,
                           bucket: string, prefix: string, suffix: string)
    requires Subscribe(c, s, a, bucket, prefix, suffix).fault.None?
    ensures Subscribe(c, s, a + b, bucket, prefix, suffix)
         == Stream(Subscribe(c, s, a, bucket, prefix, suffix).items + Subscribe(c, s, b, bucket, prefix, suffix).items,
                   Subscribe(c, s, b, bucket, prefix, suffix).fault)
  {
    var events := [ObjectCreated];
    DeliverAppend(a, b, bucket, prefix, suffix, events);
    var da, db := Deliver(a, bucket, prefix, suffix, events), Deliver(b, bucket, prefix, suffix, events);
    FirstRecordsAppend(da, db);
    ReadEachAppend(Reader(c, s, bucket), FirstRecords(da).items, FirstRecords(db).items);
  }
}

=== FILE: object_store.dfy ===
/** The S3-compatible store behind the minio client, as an immutable value:
    each bucket name maps to the bucket's objects, each key to its bytes.
    Only the client calls the adapter makes are modelled; the transport is
    assumed reliable, so the only failures are the store's own answers. */
module ObjectStore {
  import opened Basics
  import opened ByteBuffer

  type Objects = map<string, Bytes>
  type Store = map<string, Objects>

  /** `s2` is `s1` with object `key` of `bucket` set to `bytes` and nothing
      else changed. */
  ghost predicate StoresOnly(s1: Store, s2: Store, bucket: string, key: string, bytes: Bytes) {
    bucket in s1 && s2 == s1[bucket := s1[bucket][key := bytes]]
  }

  /** Spelled out: the same buckets, the object holds exactly `bytes`, and
      every other bucket and every other object is as it was. */
  lemma StoresOnlyFrame(s1: Store, s2: Store, bucket: string, key: string, bytes: Bytes)
    requires StoresOnly(s1, s2, bucket, key, bytes)
    ensures s2.Keys == s1.Keys
    ensures s2[bucket].Keys == s1[bucket].Keys + {key} && s2[bucket][key] == bytes
    ensures forall b :: b in s1 && b != bucket ==> s2[b] == s1[b]
    ensures forall k :: k in s1[bucket] && k != key ==> s2[bucket][k] == s1[bucket][k]
  {
  }

  /** `bucket_exists(bucket)`. */
  predicate BucketExists(s: Store, bucket: string) {
    bucket in s
  }

  /** `make_bucket(bucket)`: adds an empty bucket; the store refuses to make
      one that is already there (BucketAlreadyOwnedByYou). */
  function MakeBucket(s: Store, bucket: string): (r: Result<Store>)
    ensures r.Ok? <==> bucket !in s
    ensures r.Ok? ==> r.value.Keys == s.Keys + {bucket} && r.value[bucket] == map[]
    ensures r.Ok? ==> forall b :: b in s ==> r.value[b] == s[b]
  {
    if bucket in s then Err(BucketAlreadyExists) else Ok(s[bucket := map[]])
  }

  /** `remove_bucket(bucket)`: drops the bucket. The store refuses to remove
      a bucket that still holds objects (BucketNotEmpty). */
  function RemoveBucket(s: Store, bucket: string): (r: Result<Store>)
    ensures r.Ok? <==> bucket in s && s[bucket] == map[]
    ensures bucket !in s ==> r == Err(NoSuchBucket)
    ensures bucket in s && s[bucket] != map[] ==> r == Err(BucketNotEmpty)
    ensures r.Ok? ==> r.value.Keys == s.Keys - {bucket}
    ensures r.Ok? ==> forall b :: b in r.value ==> r.value[b] == s[b]
  {
    if bucket !in s then Err(NoSuchBucket)
    else if s[bucket] != map[] then Err(BucketNotEmpty)
    else Ok(s - {bucket})
  }

  /** `remove_objects(bucket, keys)` over every key the bucket lists: empties
      the bucket and leaves the others alone. */
  function ClearBucket(s: Store, bucket: string): (r: Result<Store>)
    ensures r.Ok? <==> bucket in s
    ensures bucket !in s ==> r == Err(NoSuchBucket)
    ensures r.Ok? ==> r.value.Keys == s.Keys && r.value[bucket] == map[]
    ensures r.Ok? ==> forall b :: b in s && b != bucket ==> r.value[b] == s[b]
  {
    if bucket !in s then Err(NoSuchBucket) else Ok(s[bucket := map[]])
  }

  /** `put_object(bucket, key, length, data)`: stores the `length` bytes read
      from the stream's current position under `key`. The client reads the
      stream before it sends the request, so a stream that runs dry before
      `length` bytes fails the upload, whatever the bucket, and stores
      nothing; only a full body reaches the store, which then answers about
      the bucket. */
  function PutObject(s: Store, bucket: string, key: string, length: nat, data: Buffer): (r: Result<Store>)
    ensures r.Ok? <==> bucket in s && length <= Remaining(data)
    ensures r.Ok? && length == 0 ==> StoresOnly(s, r.value, bucket, key, [])
    ensures r.Ok? && length > 0 ==> StoresOnly(s, r.value, bucket, key, data.data[data.pos..data.pos + length])
    ensures Remaining(data) < length ==> r == Err(IncompleteBody)
    ensures length <= Remaining(data) && bucket !in s ==> r == Err(NoSuchBucket)
  {
    var chunk := Read(data, length).0;
    if |chunk| < length then Err(IncompleteBody)
    else if bucket !in s then Err(NoSuchBucket)
    else Ok(s[bucket := s[bucket][key := chunk]])
  }

  /** `get_object(bucket, key).read()`: the object's full contents. */
  function GetObject(s: Store, bucket: string, key: string): (r: Result<Bytes>)
    ensures r.Ok? <==> bucket in s && key in s[bucket]
    ensures r.Ok? ==> r.value == s[bucket][key]
    ensures bucket !in s ==> r == Err(NoSuchBucket)
    ensures bucket in s && key !in s[bucket] ==> r == Err(NoSuchKey)
  {
    if bucket !in s then Err(NoSuchBucket)
    else if key !in s[bucket] then Err(NoSuchKey)
    else Ok(s[bucket][key])
  }
}

=== FILE: pandas_bucket.dfy ===
/** The `PandasBucket` class: one bucket of an S3-compatible store, into
    which datasets are written and from which they are read in the format
    their name selects. An instance is its bucket name (`self.name`); the
    client (`self.client`) is the store value every operation takes and,
    when it writes, returns. */
module PandasBucket {
  import opened Basics
  import opened ByteBuffer
  import opened ObjectStore
  import opened Codecs
  import Utf8

  /** The bucket name an instance uses when none is given. */
  const DefaultName: string := "datasets"

  // ---------------------------------------------------------------------
  // Bucket lifecycle
  // ---------------------------------------------------------------------

  /** The `exists` property: whether the store lists the bucket. */
  function Exists(s: Store, name: string): (r: bool)
    ensures r <==> name in s.Keys
  {
    BucketExists(s, name)
  }

  /** `create`, also run by the constructor: makes the bucket when it is
      absent. The source passes the undefined `name` to `make_bucket`
      (pandas_bucket.py:36); this is the intended `self.name`, and
      `CreateAsWritten` is the code as it stands. */
  function Create(s: Store, name: string): (r: Store)
    ensures name in r
    ensures name in s ==> r == s
    ensures name !in s ==> r[name] == map[]
    ensures r.Keys == s.Keys + {name}
    ensures forall b :: b in s ==> r[b] == s[b]
  {
    if Exists(s, name) then s else MakeBucket(s, name).value
  }

  /** `destroy`, as its documentation promises: removes the bucket together
      with everything in it. The store refuses to remove a bucket that holds
      objects, so the objects go first; the source calls `remove_bucket`
      alone (pandas_bucket.py:41), and `DestroyAsWritten` is the code as it
      stands. */
  function Destroy(s: Store, name: string): (r: Store)
    ensures name !in r
    ensures name !in s ==> r == s
    ensures r.Keys == s.Keys - {name}
    ensures forall b :: b in r ==> r[b] == s[b]
  {
    if Exists(s, name) then RemoveBucket(ClearBucket(s, name).value, name).value else s
  }

  /** Creating twice is creating once. */
  lemma CreateIdempotent(s: Store, name: string)
    ensures Create(Create(s, name), name) == Create(s, name)
  {
  }

  /** Destroying twice is destroying once. */
  lemma DestroyIdempotent(s: Store, name: string)
    ensures Destroy(Destroy(s, name), name) == Destroy(s, name)
  {
  }

  /** A bucket created from nothing and then destroyed leaves the store as
      it was; one destroyed and re-created comes back empty. */
  lemma CreateDestroyInverse(s: Store, name: string)
    ensures name !in s ==> Destroy(Create(s, name), name) == s
    ensures Create(Destroy(s, name), name) == s[name := map[]]
  {
    if name !in s {
      assert Destroy(Create(s, name), name).Keys == s.Keys;
    }
    assert Create(Destroy(s, name), name).Keys == s[name := map[]].Keys;
  }

  /** `create` as written: with the bucket absent, `make_bucket(name)`
      refers to a name that is not defined and raises NameError. */
  function CreateAsWritten(s: Store, name: string): (r: Result<Store>)
    ensures name in s ==> r == Ok(s)
    ensures name !in s ==> r == Err(NameError)
  {
    if Exists(s, name) then Ok(s) else Err(NameError)
  }

  /** The as-written `create` can never make a bucket, so constructing an
      instance over a missing bucket, the default one included, always fails,
      whereas `Create` leaves the bucket in place. */
  lemma CreateAsWrittenNeverCreates(s: Store, name: string)
    ensures CreateAsWritten(s, name).Ok? ==> name in s
    ensures name !in s ==> CreateAsWritten(s, name).Err? && Exists(Create(s, name), name)
    ensures DefaultName !in s ==> CreateAsWritten(s, DefaultName) == Err(NameError)
  {
  }

  /** `destroy` as written: `remove_bucket` on a bucket that still holds
      objects is refused with BucketNotEmpty, and the bucket stays. */
  function DestroyAsWritten(s: Store, name: string): (r: Result<Store>)
    ensures name !in s ==> r == Ok(s)
    ensures name in s && s[name] == map[] ==> r == Ok(Destroy(s, name))
    ensures name in s && s[name] != map[] ==> r == Err(BucketNotEmpty)
  {
    if !Exists(s, name) then Ok(s)
    else if s[name] == map[] then
      assert ClearBucket(s, name).value == s;
      RemoveBucket(s, name)
    else RemoveBucket(s, name)
  }

  /** A bucket holding any object survives the as-written `destroy`, which
      fails, while `Destroy` removes it with its contents. */
  lemma DestroyAsWrittenKeepsContents(s: Store, name: string, key: string)
    requires name in s && key in s[name]
    ensures DestroyAsWritten(s, name) == Err(BucketNotEmpty)
    ensures !Exists(Destroy(s, name), name)
  {
    assert s[name] != map[] by {
      assert key in s[name].Keys;
    }
  }

  // ---------------------------------------------------------------------
  // Buffers in and out of the store
  // ---------------------------------------------------------------------

  /** The discipline every `put_*` follows: write the encoded bytes into a
      fresh buffer, take `tell()` as the length, rewind to 0 and hand the
      buffer to `__put__` (pandas_bucket.py:43-50). */
  function Upload(s: Store, bucket: string, key: string, encoded: Bytes): (r: Result<Store>)
    ensures r.Ok? <==> bucket in s
    ensures bucket !in s ==> r == Err(NoSuchBucket)
    ensures r.Ok? ==> StoresOnly(s, r.value, bucket, key, encoded)
  {
    var data := Write(Empty, encoded);
    var length := data.pos;
    WriteFreshThenRewind(encoded);
    PutObject(s, bucket, key, length, Seek(data, 0))
  }

  /** Without the rewind the upload would read from the end of the buffer
      and fail for any non-empty encoding. */
  lemma RewindNeeded(s: Store, bucket: string, key: string, encoded: Bytes)
    requires bucket in s && encoded != []
    ensures PutObject(s, bucket, key, |encoded|, Write(Empty, encoded)) == Err(IncompleteBody)
  {
  }

  /** `__get__`: drains the object into a fresh buffer and rewinds it. */
  function GetBuffer(s: Store, bucket: string, key: string): (r: Result<Buffer>)
    ensures r.Ok? <==> bucket in s && key in s[bucket]
    ensures r.Ok? ==> r.value == Buffer(s[bucket][key], 0)
    ensures bucket !in s ==> r == Err(NoSuchBucket)
    ensures bucket in s && key !in s[bucket] ==> r == Err(NoSuchKey)
  {
    match GetObject(s, bucket, key)
    case Err(e) => Err(e)
    case Ok(bytes) =>
      WriteFreshThenRewind(bytes);
      Ok(Seek(Write(Empty, bytes), 0))
  }

  /** Reading a key right after uploading to it gives back the uploaded
      bytes at position 0; every other key reads as before. */
  lemma UploadThenGet(s: Store, bucket: string, key: string, encoded: Bytes, other: string)
    requires bucket in s
    ensures GetBuffer(Upload(s, bucket, key, encoded).value, bucket, key) == Ok(Buffer(encoded, 0))
    ensures other != key ==>
      GetBuffer(Upload(s, bucket, key, encoded).value, bucket, other) == GetBuffer(s, bucket, other)
  {
  }

  // ---------------------------------------------------------------------
  // Writing one format
  // ---------------------------------------------------------------------

  /** The keyword arguments `to_csv` receives from `put_csv`: the caller's,
      with `index` defaulting to False. */
  function CsvKwargs(kw: Kwargs): (r: Kwargs)
    ensures "index" in r && r["index"] == (if "index" in kw then kw["index"] else Flag(false))
    ensures forall k :: k != "index" ==> (k in r <==> k in kw)
    ensures forall k :: k in kw ==> r[k] == kw[k]
  {
    if "index" in kw then kw else kw["index" := Flag(false)]
  }

  /** The options each `put_*` passes to its pandas writer. */
  function WriterKwargs(f: Format, kw: Kwargs): Kwargs {
    if f == Csv then CsvKwargs(kw) else kw
  }

  /** `put_feather`, as its documentation promises: a Series is stored as a
      one-column frame. `to_feather` raises before anything is uploaded. The
      source calls `df.to_feather` whatever `df` is (pandas_bucket.py:66), and
      `PutFeatherAsWritten` is the code as it stands. */
  function PutFeather<D>(c: Codecs<D>, s: Store, bucket: string, d: D, name: string): (r: Result<Store>)
    ensures c.toFeather(AsFrame(c, d)).None? ==> r == Err(WriteFailed)
    ensures r.Ok? <==> bucket in s && c.toFeather(AsFrame(c, d)).Some?
    ensures c.toFeather(AsFrame(c, d)).Some? && bucket !in s ==> r == Err(NoSuchBucket)
    ensures r.Ok? ==> StoresOnly(s, r.value, bucket, name, c.toFeather(AsFrame(c, d)).value)
  {
    match c.toFeather(AsFrame(c, d))
    case None => Err(WriteFailed)
    case Some(bytes) => Upload(s, bucket, name, bytes)
  }

  /** `put_parquet`, with a Series stored as a frame as for `put_feather`
      (pandas_bucket.py:74). */
  function PutParquet<D>(c: Codecs<D>, s: Store, bucket: string, d: D, name: string): (r: Result<Store>)
    ensures c.toParquet(AsFrame(c, d)).None? ==> r == Err(WriteFailed)
    ensures r.Ok? <==> bucket in s && c.toParquet(AsFrame(c, d)).Some?
    ensures c.toParquet(AsFrame(c, d)).Some? && bucket !in s ==> r == Err(NoSuchBucket)
    ensures r.Ok? ==> StoresOnly(s, r.value, bucket, name, c.toParquet(AsFrame(c, d)).value)
  {
    match c.toParquet(AsFrame(c, d))
    case None => Err(WriteFailed)
    case Some(bytes) => Upload(s, bucket, name, bytes)
  }

  /** `put_feather` as written: a Series has no `to_feather`, so the call
      raises AttributeError; a DataFrame is stored as by `PutFeather`. */
  function PutFeatherAsWritten<D>(c: Codecs<D>, s: Store, bucket: string, d: D, name: string): (r: Result<Store>)
    ensures c.isSeries(d) ==> r == Err(AttributeError)
    ensures !c.isSeries(d) ==> r == PutFeather(c, s, bucket, d, name)
  {
    if c.isSeries(d) then Err(AttributeError) else PutFeather(c, s, bucket, d, name)
  }

  /** `put_parquet` as written: AttributeError for a Series. */
  function PutParquetAsWritten<D>(c: Codecs<D>, s: Store, bucket: string, d: D, name: string): (r: Result<Store>)
    ensures c.isSeries(d) ==> r == Err(AttributeError)
    ensures !c.isSeries(d) ==> r == PutParquet(c, s, bucket, d, name)
  {
    if c.isSeries(d) then Err(AttributeError) else PutParquet(c, s, bucket, d, name)
  }

  /** A Series whose frame feather and parquet can write is stored by the
      intended writers and refused by the ones as written. */
  lemma PutBinaryAsWrittenRejectsSeries<D>(c: Codecs<D>, s: Store, bucket: string, d: D, name: string)
    requires bucket in s && c.isSeries(d)
    requires c.toFeather(c.toFrame(d)).Some? && c.toParquet(c.toFrame(d)).Some?
    ensures PutFeatherAsWritten(c, s, bucket, d, name) == Err(AttributeError) && PutFeather(c, s, bucket, d, name).Ok?
    ensures PutParquetAsWritten(c, s, bucket, d, name) == Err(AttributeError) && PutParquet(c, s, bucket, d, name).Ok?
  {
  }

  /** `put_json`: the JSON text is UTF-8 encoded before its length is
      taken. `to_json` can raise, and so can the encoding, on a lone
      surrogate; either ends the call before the upload. What is stored
      decodes back to the text and holds at least one byte per character. */
  function PutJson<D>(c: Codecs<D>, s: Store, bucket: string, d: D, name: string, kw: Kwargs): (r: Result<Store>)
    ensures c.toJson(d, kw).None? ==> r == Err(WriteFailed)
    ensures c.toJson(d, kw).Some? && !Utf8.Encodable(c.toJson(d, kw).value) ==> r == Err(EncodeFailed)
    ensures r.Ok? <==> bucket in s && c.toJson(d, kw).Some? && Utf8.Encodable(c.toJson(d, kw).value)
    ensures c.toJson(d, kw).Some? && Utf8.Encodable(c.toJson(d, kw).value) && bucket !in s ==> r == Err(NoSuchBucket)
    ensures r.Ok? ==> StoresOnly(s, r.value, bucket, name, Utf8.Encode(c.toJson(d, kw).value))
    ensures r.Ok? ==> Utf8.Decode(r.value[bucket][name]) == Some(c.toJson(d, kw).value)
    ensures r.Ok? ==> |c.toJson(d, kw).value| <= |r.value[bucket][name]|
  {
    match EncodeText(c.toJson(d, kw))
    case Err(e) => Err(e)
    case Ok(bytes) => Upload(s, bucket, name, bytes)
  }

  /** `put_csv`: as `put_json`, with the row index left out unless the
      caller asks for it. */
  function PutCsv<D>(c: Codecs<D>, s: Store, bucket: string, d: D, name: string, kw: Kwargs): (r: Result<Store>)
    ensures c.toCsv(d, CsvKwargs(kw)).None? ==> r == Err(WriteFailed)
    ensures c.toCsv(d, CsvKwargs(kw)).Some? && !Utf8.Encodable(c.toCsv(d, CsvKwargs(kw)).value) ==> r == Err(EncodeFailed)
    ensures r.Ok? <==> bucket in s && c.toCsv(d, CsvKwargs(kw)).Some? && Utf8.Encodable(c.toCsv(d, CsvKwargs(kw)).value)
    ensures c.toCsv(d, CsvKwargs(kw)).Some? && Utf8.Encodable(c.toCsv(d, CsvKwargs(kw)).value) && bucket !in s
      ==> r == Err(NoSuchBucket)
    ensures r.Ok? ==> StoresOnly(s, r.value, bucket, name, Utf8.Encode(c.toCsv(d, CsvKwargs(kw)).value))
    ensures r.Ok? ==> Utf8.Decode(r.value[bucket][name]) == Some(c.toCsv(d, CsvKwargs(kw)).value)
    ensures r.Ok? ==> |c.toCsv(d, CsvKwargs(kw)).value| <= |r.value[bucket][name]|
  {
    match EncodeText(c.toCsv(d, CsvKwargs(kw)))
    case Err(e) => Err(e)
    case Ok(bytes) => Upload(s, bucket, name, bytes)
  }

  /** Wraps an upload result as the value `put` returns. */
  function Stored(r: Result<Store>): Result<Option<Store>> {
    match r
    case Err(e) => Err(e)
    case Ok(s') => Ok(Some(s'))
  }

  /** The bytes `put` stores for a dataset in format `f`, or the error the
      writer or the encoding raises. */
  function Written<D>(c: Codecs<D>, f: Format, d: D, kw: Kwargs): Result<Bytes> {
    Serialize(c, f, d, WriterKwargs(f, kw))
  }

  /** Whether the `put_*` for format `f` accepts the options: `put_feather`
      and `put_parquet` take none (pandas_bucket.py:63, :71). */
  predicate OptionsAccepted(f: Format, kw: Kwargs) {
    !IsBinary(f) || kw == NoKwargs
  }

  /** One branch of `put`: the call of the `put_*` for format `f`. */
  function PutInFormat<D>(c: Codecs<D>, s: Store, bucket: string, d: D, name: string, f: Format, kw: Kwargs)
    : (r: Result<Option<Store>>)
    ensures !OptionsAccepted(f, kw) ==> r == Err(TypeError)
    ensures OptionsAccepted(f, kw) && Written(c, f, d, kw).Err? ==> r == Err(Written(c, f, d, kw).error)
    ensures OptionsAccepted(f, kw) && Written(c, f, d, kw).Ok? && bucket !in s ==> r == Err(NoSuchBucket)
    ensures OptionsAccepted(f, kw) && Written(c, f, d, kw).Ok? && bucket in s ==>
      r.Ok? && r.value.Some? && StoresOnly(s, r.value.value, bucket, name, Written(c, f, d, kw).value)
  {
    match f
    case Feather =>
      assert Written(c, Feather, d, kw) == Binary(c.toFeather(AsFrame(c, d)));
      if kw != NoKwargs then Err(TypeError) else Stored(PutFeather(c, s, bucket, d, name))
    case Parquet =>
      assert Written(c, Parquet, d, kw) == Binary(c.toParquet(AsFrame(c, d)));
      if kw != NoKwargs then Err(TypeError) else Stored(PutParquet(c, s, bucket, d, name))
    case Json =>
      assert Written(c, Json, d, kw) == EncodeText(c.toJson(d, kw));
      Stored(PutJson(c, s, bucket, d, name, kw))
    case Csv =>
      assert Written(c, Csv, d, kw) == EncodeText(c.toCsv(d, CsvKwargs(kw)));
      Stored(PutCsv(c, s, bucket, d, name, kw))
  }

  /** `put`: writes in the format the name's suffix selects, testing
      `.feather`, `.parquet`, `.json` and `.csv` in that order; with no
      match it stores nothing and returns None. The source does not pass
      `name` on to the `put_*` it calls (pandas_bucket.py:123-129); this is
      the intended `put_*(df, name, **kwargs)`, and `PutAsWritten` is the
      code as it stands. Options given for feather or parquet still raise
      TypeError, as those helpers take none. */
  function Put<D>(c: Codecs<D>, s: Store, bucket: string, d: D, name: string, kw: Kwargs): (r: Result<Option<Store>>)
    ensures FormatOf(name).None? ==> r == Ok(None)
    ensures FormatOf(name).Some? ==>
      var f := FormatOf(name).value;
      && (!OptionsAccepted(f, kw) ==> r == Err(TypeError))
      && (OptionsAccepted(f, kw) && Written(c, f, d, kw).Err? ==> r == Err(Written(c, f, d, kw).error))
      && (OptionsAccepted(f, kw) && Written(c, f, d, kw).Ok? && bucket !in s ==> r == Err(NoSuchBucket))
      && (OptionsAccepted(f, kw) && Written(c, f, d, kw).Ok? && bucket in s ==>
            r.Ok? && r.value.Some? && StoresOnly(s, r.value.value, bucket, name, Written(c, f, d, kw).value))
  {
    FormatOfChain(name);
    if EndsWith(name, ".feather") then PutInFormat(c, s, bucket, d, name, Feather, kw)
    else if EndsWith(name, ".parquet") then PutInFormat(c, s, bucket, d, name, Parquet, kw)
    else if EndsWith(name, ".json") then PutInFormat(c, s, bucket, d, name, Json, kw)
    else if EndsWith(name, ".csv") then PutInFormat(c, s, bucket, d, name, Csv, kw)
    else Ok(None)
  }

  // ---------------------------------------------------------------------
  // Reading one format
  // ---------------------------------------------------------------------

  /** What reading `name` in format `f` must produce: the store's error when
      the bucket or the object is missing, otherwise the stored bytes
      decoded, or DecodeFailed when they do not decode. */
  function Fetch<D>(c: Codecs<D>, f: Format, s: Store, bucket: string, name: string, kw: Kwargs): Result<D> {
    if bucket !in s then Err(NoSuchBucket)
    else if name !in s[bucket] then Err(NoSuchKey)
    else match Deserialize(c, f, s[bucket][name], kw)
      case None => Err(DecodeFailed)
      case Some(d) => Ok(d)
  }

  /** Runs a pandas reader on the buffer `__get__` returns. */
  function Decoded<D>(r: Option<D>): Result<D> {
    match r
    case None => Err(DecodeFailed)
    case Some(d) => Ok(d)
  }

  /** `read_feather`. The source passes it keyword arguments it does not
      accept (pandas_bucket.py:161); here it forwards them to the reader. */
  function ReadFeather<D>(c: Codecs<D>, s: Store, bucket: string, name: string, kw: Kwargs): (r: Result<D>)
    ensures r == Fetch(c, Feather, s, bucket, name, kw)
  {
    match GetBuffer(s, bucket, name)
    case Err(e) => Err(e)
    case Ok(data) => Decoded(c.fromFeather(ReadToEnd(data).0, kw))
  }

  /** `read_parquet`, with keyword arguments forwarded as for `read_feather`
      (pandas_bucket.py:163). */
  function ReadParquet<D>(c: Codecs<D>, s: Store, bucket: string, name: string, kw: Kwargs): (r: Result<D>)
    ensures r == Fetch(c, Parquet, s, bucket, name, kw)
  {
    match GetBuffer(s, bucket, name)
    case Err(e) => Err(e)
    case Ok(data) => Decoded(c.fromParquet(ReadToEnd(data).0, kw))
  }

  /** `read_json`: pandas reads the buffer as text: strict UTF-8 without
      options, its own byte-to-text step (decompression, another encoding)
      with them. */
  function ReadJson<D>(c: Codecs<D>, s: Store, bucket: string, name: string, kw: Kwargs): (r: Result<D>)
    ensures r == Fetch(c, Json, s, bucket, name, kw)
  {
    match GetBuffer(s, bucket, name)
    case Err(e) => Err(e)
    case Ok(data) =>
      match TextOf(c, ReadToEnd(data).0, kw)
      case None => Err(DecodeFailed)
      case Some(text) => Decoded(c.fromJson(text, kw))
  }

  /** `read_csv`: pandas reads the buffer as text: strict UTF-8 without
      options, its own byte-to-text step (decompression, another encoding)
      with them. */
  function ReadCsv<D>(c: Codecs<D>, s: Store, bucket: string, name: string, kw: Kwargs): (r: Result<D>)
    ensures r == Fetch(c, Csv, s, bucket, name, kw)
  {
    match GetBuffer(s, bucket, name)
    case Err(e) => Err(e)
    case Ok(data) =>
      match TextOf(c, ReadToEnd(data).0, kw)
      case None => Err(DecodeFailed)
      case Some(text) => Decoded(c.fromCsv(text, kw))
  }

  /** Wraps a read result as the value `read` returns. */
  function Found<D>(r: Result<D>): Result<Option<D>> {
    match r
    case Err(e) => Err(e)
    case Ok(d) => Ok(Some(d))
  }

  /** `read`: reads in the format the name's suffix selects, by the same
      tests in the same order as `put`; with no match it returns None. */
  function Read<D>(c: Codecs<D>, s: Store, bucket: string, name: string, kw: Kwargs): (r: Result<Option<D>>)
    ensures FormatOf(name).None? ==> r == Ok(None)
    ensures FormatOf(name).Some? ==> r == Found(Fetch(c, FormatOf(name).value, s, bucket, name, kw))
  {
    FormatOfChain(name);
    if EndsWith(name, ".feather") then Found(ReadFeather(c, s, bucket, name, kw))
    else if EndsWith(name, ".parquet") then Found(ReadParquet(c, s, bucket, name, kw))
    else if EndsWith(name, ".json") then Found(ReadJson(c, s, bucket, name, kw))
    else if EndsWith(name, ".csv") then Found(ReadCsv(c, s, bucket, name, kw))
    else Ok(None)
  }

  // ---------------------------------------------------------------------
  // Put and read together
  // ---------------------------------------------------------------------

  /** Putting a dataset succeeds exactly when its `put_*` takes the options
      and its writer and the encoding do not raise. Reading the name right
      after reads the stored bytes; for a binary format, or a text format
      read without options, the result is exactly what the codec's writer
      followed by its reader makes of the dataset. */
  lemma PutThenRead<D>(c: Codecs<D>, s: Store, bucket: string, d: D, name: string, wk: Kwargs, rk: Kwargs)
    requires bucket in s && FormatOf(name).Some?
    ensures
      var f := FormatOf(name).value;
      Put(c, s, bucket, d, name, wk).Ok? <==> OptionsAccepted(f, wk) && Written(c, f, d, wk).Ok?
    ensures
      var f := FormatOf(name).value;
      Put(c, s, bucket, d, name, wk).Ok? ==>
        && Put(c, s, bucket, d, name, wk).value.Some?
        && Read(c, Put(c, s, bucket, d, name, wk).value.value, bucket, name, rk)
           == Found(Decoded(Deserialize(c, f, Written(c, f, d, wk).value, rk)))
        && (IsBinary(f) || DefaultDecoding(rk) ==>
              Read(c, Put(c, s, bucket, d, name, wk).value.value, bucket, name, rk)
              == Found(Decoded(CodecRoundTrip(c, f, d, WriterKwargs(f, wk), rk))))
  {
    var f := FormatOf(name).value;
    if OptionsAccepted(f, wk) && Written(c, f, d, wk).Ok? {
      var s' := Put(c, s, bucket, d, name, wk).value.value;
      var bytes := Written(c, f, d, wk).value;
      assert StoresOnly(s, s', bucket, name, bytes);
      assert Fetch(c, f, s', bucket, name, rk) == Decoded(Deserialize(c, f, bytes, rk));
      SerializeTransparent(c, f, d, WriterKwargs(f, wk), rk);
    }
  }

  /** With lossless binary codecs, a feather or parquet dataset put without
      options reads back as the frame that was written: the dataset itself,
      or the one-column frame of a Series. */
  lemma PutThenReadLossless<D(!new)>(c: Codecs<D>, s: Store, bucket: string, d: D, name: string)
    requires BinaryLossless(c)
    requires bucket in s && (FormatOf(name) == Some(Feather) || FormatOf(name) == Some(Parquet))
    ensures Put(c, s, bucket, d, name, NoKwargs).Ok? ==>
      Read(c, Put(c, s, bucket, d, name, NoKwargs).value.value, bucket, name, NoKwargs) == Ok(Some(AsFrame(c, d)))
  {
    PutThenRead(c, s, bucket, d, name, NoKwargs, NoKwargs);
  }

  /** Storing one object leaves every other name of the bucket reading as
      before. */
  lemma StoreKeepsOtherNames<D>(c: Codecs<D>, s: Store, s': Store, bucket: string, name: string, bytes: Bytes,
                                other: string, rk: Kwargs)
    requires StoresOnly(s, s', bucket, name, bytes) && other != name
    ensures Read(c, s', bucket, other, rk) == Read(c, s, bucket, other, rk)
  {
    assert bucket in s';
    assert other in s'[bucket] <==> other in s[bucket];
    assert other in s[bucket] ==> s'[bucket][other] == s[bucket][other];
    if FormatOf(other).Some? {
      var f := FormatOf(other).value;
      assert Fetch(c, f, s', bucket, other, rk) == Fetch(c, f, s, bucket, other, rk);
    }
  }

  /** Putting under one name never changes what another name reads. */
  lemma PutKeepsOtherNames<D>(c: Codecs<D>, s: Store, bucket: string, d: D, name: string, other: string, kw: Kwargs, rk: Kwargs)
    requires bucket in s && FormatOf(name).Some? && other != name
    ensures Put(c, s, bucket, d, name, kw).Ok? ==>
      Read(c, Put(c, s, bucket, d, name, kw).value.value, bucket, other, rk) == Read(c, s, bucket, other, rk)
  {
    var f := FormatOf(name).value;
    if OptionsAccepted(f, kw) && Written(c, f, d, kw).Ok? {
      StoreKeepsOtherNames(c, s, Put(c, s, bucket, d, name, kw).value.value, bucket, name,
                           Written(c, f, d, kw).value, other, rk);
    }
  }

  // ---------------------------------------------------------------------
  // The dispatchers as written
  // ---------------------------------------------------------------------

  /** `put` as written: each branch calls its `put_*` without the `name`
      argument, which Python rejects with TypeError before anything is
      stored; an unmatched name still returns None. */
  function PutAsWritten<D>(c: Codecs<D>, s: Store, bucket: string, d: D, name: string, kw: Kwargs): (r: Result<Option<Store>>)
    ensures FormatOf(name).None? ==> r == Ok(None)
    ensures FormatOf(name).Some? ==> r == Err(TypeError)
  {
    FormatOfChain(name);
    if EndsWith(name, ".feather") || EndsWith(name, ".parquet")
       || EndsWith(name, ".json") || EndsWith(name, ".csv")
    then Err(TypeError)
    else Ok(None)
  }

  /** As written, `put` never stores a dataset, so a following `read` of a
      fresh name finds no object, where the intended `put` of a writable
      dataset makes it readable. */
  lemma PutAsWrittenStoresNothing<D>(c: Codecs<D>, s: Store, bucket: string, d: D, name: string, kw: Kwargs)
    requires bucket in s && name !in s[bucket] && FormatOf(name).Some?
    requires OptionsAccepted(FormatOf(name).value, kw) && Written(c, FormatOf(name).value, d, kw).Ok?
    ensures PutAsWritten(c, s, bucket, d, name, kw) == Err(TypeError)
    ensures Read(c, s, bucket, name, kw) == Err(NoSuchKey)
    ensures name in Put(c, s, bucket, d, name, kw).value.value[bucket]
  {
  }

  /** `read` as written: `read_feather` and `read_parquet` take no keyword
      arguments, so passing any raises TypeError; without them, and for the
      other formats, it reads as `Read` does. */
  function ReadAsWritten<D>(c: Codecs<D>, s: Store, bucket: string, name: string, kw: Kwargs): (r: Result<Option<D>>)
    ensures (FormatOf(name) == Some(Feather) || FormatOf(name) == Some(Parquet)) && kw != NoKwargs
      ==> r == Err(TypeError)
    ensures (FormatOf(name) == Some(Json) || FormatOf(name) == Some(Csv) || FormatOf(name).None? || kw == NoKwargs)
      ==> r == Read(c, s, bucket, name, kw)
  {
    FormatOfChain(name);
    if EndsWith(name, ".feather") then
      if kw != NoKwargs then Err(TypeError) else Found(ReadFeather(c, s, bucket, name, NoKwargs))
    else if EndsWith(name, ".parquet") then
      if kw != NoKwargs then Err(TypeError) else Found(ReadParquet(c, s, bucket, name, NoKwargs))
    else if EndsWith(name, ".json") then Found(ReadJson(c, s, bucket, name, kw))
    else if EndsWith(name, ".csv") then Found(ReadCsv(c, s, bucket, name, kw))
    else Ok(None)
  }

  /** A feather object the reader can decode with the given options is read
      by `Read`, but rejected by the as-written `read`. */
  lemma ReadAsWrittenRejectsOptions<D>(c: Codecs<D>, s: Store, bucket: string, d: D, name: string, kw: Kwargs)
    requires bucket in s && FormatOf(name) == Some(Feather) && kw != NoKwargs
    requires c.toFeather(AsFrame(c, d)).Some? && c.fromFeather(c.toFeather(AsFrame(c, d)).value, kw).Some?
    ensures Put(c, s, bucket, d, name, NoKwargs).Ok?
    ensures
      var s' := Put(c, s, bucket, d, name, NoKwargs).value.value;
      ReadAsWritten(c, s', bucket, name, kw) == Err(TypeError) && Read(c, s', bucket, name, kw).Ok?
  {
    PutThenRead(c, s, bucket, d, name, NoKwargs, kw);
  }
}

=== FILE: utf8.dfy ===
/** UTF-8 as defined by section 3 of RFC 3629: the step `str.encode("utf-8")`
    that the text formats take before their byte length is measured, and the
    strict decoding that reading a text format back performs. A Python `str`
    is a sequence of code points that may include lone surrogates; those have
    no UTF-8 form, and encoding a text holding one fails. */
module Utf8 {
  import opened Basics

  /** A Unicode code point, U+0000 to U+10FFFF. */
  type CodePoint = x: int | 0 <= x < 0x110000

  /** A Python `str`. */
  type Text = seq<CodePoint>

  predicate IsSurrogate(c: CodePoint) {
    0xD800 <= c < 0xE000
  }

  /** A text that has a UTF-8 form: it holds no surrogate code point. */
  predicate Encodable(s: Text) {
    forall i :: 0 <= i < |s| ==> !IsSurrogate(s[i])
  }

  /** True for a continuation byte `10xxxxxx`. */
  predicate IsContinuation(b: byte) {
    0x80 <= b < 0xC0
  }

  /** The one-to-four byte encoding of a single scalar value. */
  function EncodeChar(c: CodePoint): (r: Bytes)
    requires !IsSurrogate(c)
    ensures 1 <= |r| <= 4
    ensures |r| == 1 <==> c < 0x80
    ensures r[0] < 0x80 || 0xC2 <= r[0] <= 0xF4
    ensures forall i :: 1 <= i < |r| ==> IsContinuation(r[i])
  {
    var n := c;
    if n < 0x80 then [n]
    else if n < 0x800 then [0xC0 + n / 64, 0x80 + n % 64]
    else if n < 0x10000 then [0xE0 + n / 4096, 0x80 + (n / 64) % 64, 0x80 + n % 64]
    else [0xF0 + n / 262144, 0x80 + (n / 4096) % 64, 0x80 + (n / 64) % 64, 0x80 + n % 64]
  }

  /** The encoding of an encodable text: its characters' encodings,
      concatenated. */
  function Encode(s: Text): (r: Bytes)
    requires Encodable(s)
    ensures |s| <= |r| <= 4 * |s|
    ensures s == [] <==> r == []
  {
    if s == [] then []
    else
      assert Encodable(s[1..]) by {
        forall i | 0 <= i < |s[1..]| ensures !IsSurrogate(s[1..][i]) {
          assert s[1..][i] == s[i + 1];
        }
      }
      EncodeChar(s[0]) + Encode(s[1..])
  }

  /** Decodes the scalar value at the head of `b`, returning it with the
      number of bytes it occupies; `None` for an ill-formed sequence
      (a bad lead byte, a missing continuation byte, an overlong form,
      a surrogate or a value above U+10FFFF). */
  function DecodeFirst(b: Bytes): (r: Option<(CodePoint, nat)>)
    ensures r.Some? ==> 1 <= r.value.1 <= |b| && r.value.1 <= 4 && !IsSurrogate(r.value.0)
  {
    if |b| == 0 then None
    else if b[0] < 0x80 then Some((b[0] as CodePoint, 1))
    else if 0xC2 <= b[0] < 0xE0 then
      if |b| < 2 || !IsContinuation(b[1]) then None
      else Some((((b[0] as int - 0xC0) * 64 + (b[1] as int - 0x80)) as CodePoint, 2))
    else if 0xE0 <= b[0] < 0xF0 then
      if |b| < 3 || !IsContinuation(b[1]) || !IsContinuation(b[2]) then None
      else
        var n := (b[0] as int - 0xE0) * 4096 + (b[1] as int - 0x80) * 64 + (b[2] as int - 0x80);
        if n < 0x800 || (0xD800 <= n < 0xE000) then None else Some((n as CodePoint, 3))
    else if 0xF0 <= b[0] < 0xF5 then
      if |b| < 4 || !IsContinuation(b[1]) || !IsContinuation(b[2]) || !IsContinuation(b[3]) then None
      else
        var n := (b[0] as int - 0xF0) * 262144 + (b[1] as int - 0x80) * 4096 + (b[2] as int - 0x80) * 64 + (b[3] as int - 0x80);
        if n < 0x10000 || n >= 0x110000 then None else Some((n as CodePoint, 4))
    else None
  }

  /** Strict decoding of a whole byte sequence; `None` when any part of it is
      ill-formed (Python raises UnicodeDecodeError there). */
  function Decode(b: Bytes): (r: Option<Text>)
    ensures r.Some? ==> Encodable(r.value) && |r.value| <= |b|
    ensures b == [] ==> r == Some([])
    decreases |b|
  {
    if b == [] then Some([])
    else match DecodeFirst(b)
      case None => None
      case Some((c, k)) =>
        match Decode(b[k..])
        case None => None
        case Some(rest) => Some([c] + rest)
  }

  lemma DivMod64(q: int, r: int)
    requires 0 <= r < 64
    ensures (q * 64 + r) / 64 == q && (q * 64 + r) % 64 == r
  {
  }

  /** Peeling two six-bit groups off a value is peeling one twelve-bit group. */
  lemma DivDiv64(n: int)
    requires 0 <= n
    ensures (n / 64) / 64 == n / 4096
    ensures (n / 4096) / 64 == n / 262144
  {
    var q, r := n / 4096, n % 4096;
    DivMod64(q * 64 + r / 64, r % 64);
    DivMod64(q, r / 64);
    var q', r' := n / 262144, n % 262144;
    assert n / 4096 == q' * 64 + r' / 4096;
    DivMod64(q', r' / 4096);
  }

  /** Decoding the encoding of one character, followed by anything, gives that
      character back and consumes exactly its encoding. */
  lemma DecodeEncodeChar(c: CodePoint, rest: Bytes)
    requires !IsSurrogate(c)
    ensures DecodeFirst(EncodeChar(c) + rest) == Some((c, |EncodeChar(c)|))
  {
    var n := c;
    var e := EncodeChar(c) + rest;
    if n < 0x80 {
      assert e[0] == n;
    } else if n < 0x800 {
      assert e[0] == 0xC0 + n / 64 && e[1] == 0x80 + n % 64;
      assert (e[0] as int - 0xC0) * 64 + (e[1] as int - 0x80) == n;
    } else if n < 0x10000 {
      DivDiv64(n);
      var hi, mid, lo := n / 4096, (n / 64) % 64, n % 64;
      assert n / 64 == hi * 64 + mid;
      assert n == hi * 4096 + mid * 64 + lo;
      assert e[0] == 0xE0 + hi && e[1] == 0x80 + mid && e[2] == 0x80 + lo;
    } else {
      DivDiv64(n);
      var top, hi, mid, lo := n / 262144, (n / 4096) % 64, (n / 64) % 64, n % 64;
      assert n / 4096 == top * 64 + hi;
      assert n / 64 == (top * 64 + hi) * 64 + mid;
      assert n == top * 262144 + hi * 4096 + mid * 64 + lo;
      assert e[0] == 0xF0 + top && e[1] == 0x80 + hi && e[2] == 0x80 + mid && e[3] == 0x80 + lo;
    }
  }

  /** Round trip: an encodable text survives encoding followed by decoding. */
  lemma {:induction false} DecodeEncode(s: Text)
    requires Encodable(s)
    ensures Decode(Encode(s)) == Some(s)
  {
    if s != [] {
      var head := EncodeChar(s[0]);
      var tail := Encode(s[1..]);
      DecodeEncodeChar(s[0], tail);
      assert (head + tail)[|head|..] == tail;
      DecodeEncode(s[1..]);
      assert [s[0]] + s[1..] == s;
    }
  }

  /** Splitting a value assembled from six-bit groups gives the groups back. */
  lemma Split3(x: int, y: int, z: int)
    requires 0 <= x && 0 <= y < 64 && 0 <= z < 64
    ensures var n := x * 4096 + y * 64 + z;
      n / 4096 == x && (n / 64) % 64 == y && n % 64 == z
  {
    var n := x * 4096 + y * 64 + z;
    DivMod64(x * 64 + y, z);
    DivMod64(x, y);
    DivDiv64(n);
  }

  lemma Split4(w: int, x: int, y: int, z: int)
    requires 0 <= w && 0 <= x < 64 && 0 <= y < 64 && 0 <= z < 64
    ensures var n := w * 262144 + x * 4096 + y * 64 + z;
      n / 262144 == w && (n / 4096) % 64 == x && (n / 64) % 64 == y && n % 64 == z
  {
    var n := w * 262144 + x * 4096 + y * 64 + z;
    DivMod64(w * 4096 + x * 64 + y, z);
    DivMod64(w * 64 + x, y);
    DivMod64(w, x);
    DivDiv64(n);
  }

  /** A head that decodes is exactly the encoding of the character decoded
      from it: strict decoding admits one byte form per character. */
  lemma EncodeDecodeFirst(b: Bytes)
    requires DecodeFirst(b).Some?
    ensures EncodeChar(DecodeFirst(b).value.0) == b[..DecodeFirst(b).value.1]
  {
    if b[0] < 0x80 {
    } else if b[0] < 0xE0 {
      EncodeDecodeTwo(b);
    } else if b[0] < 0xF0 {
      EncodeDecodeThree(b);
    } else {
      EncodeDecodeFour(b);
    }
  }

  lemma EncodeDecodeTwo(b: Bytes)
    requires DecodeFirst(b).Some? && 0x80 <= b[0] < 0xE0
    ensures EncodeChar(DecodeFirst(b).value.0) == b[..2]
  {
    var x: int, y: int := b[0] - 0xC0, b[1] - 0x80;
    var c := DecodeFirst(b).value.0;
    assert c as int == x * 64 + y;
    DivMod64(x, y);
  }

  lemma EncodeDecodeThree(b: Bytes)
    requires DecodeFirst(b).Some? && 0xE0 <= b[0] < 0xF0
    ensures EncodeChar(DecodeFirst(b).value.0) == b[..3]
  {
    var x: int, y: int, z: int := b[0] - 0xE0, b[1] - 0x80, b[2] - 0x80;
    var c := DecodeFirst(b).value.0;
    assert c as int == x * 4096 + y * 64 + z;
    Split3(x, y, z);
  }

  lemma EncodeDecodeFour(b: Bytes)
    requires DecodeFirst(b).Some? && 0xF0 <= b[0]
    ensures EncodeChar(DecodeFirst(b).value.0) == b[..4]
  {
    var w: int, x: int, y: int, z: int := b[0] - 0xF0, b[1] - 0x80, b[2] - 0x80, b[3] - 0x80;
    var c := DecodeFirst(b).value.0;
    assert c as int == w * 262144 + x * 4096 + y * 64 + z;
    Split4(w, x, y, z);
  }

  /** One step of a successful decoding: the head character, then the
      decoding of what follows it. */
  lemma DecodeStep(b: Bytes)
    requires b != [] && Decode(b).Some?
    ensures DecodeFirst(b).Some?
    ensures Decode(b[DecodeFirst(b).value.1..]).Some?
    ensures Decode(b).value == [DecodeFirst(b).value.0] + Decode(b[DecodeFirst(b).value.1..]).value
  {
  }

  /** Encoding a text one character longer at the front. */
  lemma EncodeCons(c: CodePoint, tail: Text)
    requires !IsSurrogate(c) && Encodable(tail)
    ensures Encodable([c] + tail)
    ensures Encode([c] + tail) == EncodeChar(c) + Encode(tail)
  {
    var s := [c] + tail;
    forall i | 0 <= i < |s| ensures !IsSurrogate(s[i]) {
      if i > 0 {
        assert s[i] == tail[i - 1];
      }
    }
    assert s[0] == c && s[1..] == tail;
  }

  /** One step of the re-encoding: a character whose encoding is the head of
      `b`, followed by a text whose encoding is the rest. */
  lemma EncodeDecodeStep(b: Bytes, c: CodePoint, k: nat, tail: Text)
    requires k <= |b| && !IsSurrogate(c) && Encodable(tail)
    requires EncodeChar(c) == b[..k] && Encode(tail) == b[k..]
    ensures Encodable([c] + tail) && Encode([c] + tail) == b
  {
    EncodeCons(c, tail);
    assert b == b[..k] + b[k..];
  }

  /** The other direction: whatever decodes re-encodes to the very same bytes,
      so decoding is injective on the byte sequences it accepts. */
  lemma {:induction false} EncodeDecode(b: Bytes)
    requires Decode(b).Some?
    ensures Encode(Decode(b).value) == b
    decreases |b|
  {
    if b != [] {
      DecodeStep(b);
      var c, k := DecodeFirst(b).value.0, DecodeFirst(b).value.1;
      EncodeDecodeFirst(b);
      EncodeDecode(b[k..]);
      EncodeDecodeStep(b, c, k, Decode(b[k..]).value);
    }
  }

  /** Decoding succeeds exactly on the encodings of texts, and then yields
      that one text. */
  lemma DecodeExactly(b: Bytes)
    ensures Decode(b).Some? ==> Encodable(Decode(b).value) && Encode(Decode(b).value) == b
    ensures forall t: Text :: Encodable(t) && Encode(t) == b ==> Decode(b) == Some(t)
  {
    if Decode(b).Some? {
      EncodeDecode(b);
    }
    forall t: Text | Encodable(t) && Encode(t) == b
      ensures Decode(b) == Some(t)
    {
      DecodeEncode(t);
    }
  }

  /** `str.encode("utf-8")`: the encoding of the text, or `None` where Python
      raises UnicodeEncodeError because the text holds a lone surrogate. What
      it produces always decodes back to the text. */
  function EncodeStrict(s: Text): (r: Option<Bytes>)
    ensures r.Some? <==> Encodable(s)
    ensures r.Some? ==> Decode(r.value) == Some(s) && |s| <= |r.value|
  {
    if Encodable(s) then
      DecodeEncode(s);
      Some(Encode(s))
    else None
  }
}
